=== FILE: README.md ===
# ember-froala-editor: the `included(app)` build hook

This project models the build-time option resolver of the ember-froala-editor
addon, in Dafny, and proves properties about it. The resolver runs when
ember-cli calls the addon's `included(app)` hook. It works in two stages:

1. **Option merge.** The hook walks the chain of consumers from the addon out
   to the root application. At each level it takes that level's
   `options['ember-froala-editor']` block and shallow-merges it into an
   accumulator with `Object.assign`. Outer levels override inner ones, and the
   root application has the last word. It writes a deprecation notice when no
   visited block declares `plugins`. Finally it overlays the merged block on
   `defaultOptions`, which sets `languages`, `plugins` and `themes` to `false`.
2. **Asset resolution.** The hook imports the four base files: the editor
   script, two stylesheets and the vendor shim. In FastBoot it stops there.
   Otherwise it builds one descriptor per truthy category:
   - Plugin(s): `.min.js`, required;
   - Plugin CSS: `.css`, optional;
   - Language(s);
   - Themes(s).

   For each descriptor, in that order, it:
   - lists the descriptor's directories into a file-name index, where the
     last directory wins a name clash;
   - turns the option value into a list of requested names: `true` asks for
     everything, a string for one name, an array for the names it holds, and
     anything else throws;
   - imports every requested `name + extension` that the index holds;
   - throws, naming the misses, when a required descriptor missed anything.

Modules, in the order of the hook:

| module | file | what it holds |
|---|---|---|
| `Optional` | optional.dfy | `Maybe`, a property that may be missing |
| `Sequences` | sequences.dfy | `Distinct`, `FirstIndex` and the order-keeping de-duplication of the `reduce` at index.js:148-151 |
| `JsValue` | js_value.dfy | the JavaScript values an option can hold, truthiness, `String(v)` as used by `file + ext`, and `Array.prototype.join` |
| `Paths` | paths.dfy | `path.join` as `dir + "/" + name`; the `node_modules/froala-editor` prefix |
| `OptionMerge` | option_merge.dfy | the consumer-chain walk, the `Object.assign` fold, the defaults and the deprecation notice |
| `Discovery` | discovery.dfy | the `pathFiles` object: an insertion-ordered map from file name to relative path, and the directory scan that fills it |
| `Selection` | selection.dfy | selector classification, first-dot prefixes, and the lookup loop that imports hits and collects misses |
| `Resolver` | resolver.dfy | descriptors, the resolution of each descriptor, the chaining of descriptors, and the error messages |
| `Addon` | included.dfy | the whole hook |

The environment is made explicit:
- The file system is a `map<string, seq<string>>` from a directory, relative
  to the library root, to its file names in `readdirSync` order.
- The `FastBoot` global is a boolean.
- The import sink is the `seq<string>` of registered paths.
- The deprecation notice is a boolean on the result.
- A throw is an `Outcome.Thrown` that keeps the imports registered before it.

## Model

| member | source | states |
|---|---|---|
| OptionMerge.Assign | index.js:56 | `Object.assign(target, source)`: the result has both key sets; a source value wins; a target value survives when the source lacks the key |
| OptionMerge.VisitedHosts | index.js:52-58 | one host per level; a level with its own `app` uses it; a level without one re-uses the previous level's host, and the first such level uses the hook's `app` argument |
| OptionMerge.MergeHosts | index.js:51-58 | a key is in the merged block exactly when some visited host declares it |
| OptionMerge.OutermostDeclarationWins | index.js:51-58 | a key takes the value of the outermost host that declares it, so inner-only keys survive and outer ones override |
| OptionMerge.RootLevelWins | index.js:49-58 | the root level's own declaration of a key overrides every inner level, whatever the depth of the chain |
| OptionMerge.RepeatedHostIsHarmless | index.js:54-56 | merging the same carried-over host twice equals merging it once |
| OptionMerge.EffectiveOptions | index.js:71 | the effective options are the merged keys plus the three categories; a declared key keeps its declared value, whatever it is; an undeclared category is `false` |
| OptionMerge.UndeclaredCategoryIsFalse | index.js:22-26 | a category no host declares is `false`; a key outside the categories passes through unchanged |
| OptionMerge.MergeChain | index.js:51-58 | the merged block of a chain holds exactly the keys that some visited host declares |
| OptionMerge.DeprecationNotice | index.js:61-71 | the notice is written only when the effective `plugins` falls back to the default `false` |
| OptionMerge.DeprecationIffPluginsNeverDeclared | index.js:61-67 | the notice is written exactly when no visited host declares `plugins` |
| OptionMerge.DeprecationLeavesOptionsAlone | index.js:61-71 | answering the notice with `plugins: false` silences it and leaves the effective options unchanged |
| Addon.Included | index.js:45-189 | the four base imports always come first; with FastBoot they are the only imports; the notice flag is exactly "no visited host declares `plugins`" |
| Addon.BaseImportsComeFirst | index.js:77-87 | whatever asset resolution does, the four base paths stay in front, and a resolution that imports nothing leaves exactly those four |
| Resolver.Descriptors | index.js:93-123 | there are two descriptors for a truthy `plugins`, one each for truthy `languages` and `themes`, and no others |
| Resolver.DescriptorsIffTruthy | index.js:93-123 | a category has a descriptor exactly when its value is truthy, including `[]`; a truthy `plugins` yields both the script and the stylesheet descriptor |
| Resolver.DescriptorsCarryTheirValue | index.js:93-123 | every descriptor carries the truthy value of its own option key; plugin scripts use `.min.js` over `js/plugins` then `js/third_party`, plugin stylesheets `.css` over `css/plugins` then `css/third_party`, languages `.js` over `js/languages`, themes `.css` over `css/themes`; only the plugin-stylesheet descriptor is optional |
| Resolver.DescriptorsInBuildOrder | index.js:93-123 | descriptors come in the order plugin scripts, plugin stylesheets, languages, themes |
| Resolver.EmptyListBehavesLikeFalse | index.js:93-123 | for the build, `[]` in a category gives the same outcome as `false`, once that category's directories can be listed |
| Resolver.EmptyArrayImportsNothing | index.js:93 | a descriptor holding `[]` imports nothing and throws nothing, once its directories can be listed (they are listed before `files` is looked at) |
| Resolver.ResolveAsset | index.js:126-188 | one descriptor's outcome: it fails with the unreadable-directory error exactly when discovery fails, naming one of its directories and importing nothing; any other error carries the descriptor's category; an optional descriptor never reports missing files |
| Resolver.ResolveAssetErrors | index.js:142-187 | the type error is thrown exactly for a value that is not a boolean, string or array, before any import; the missing-file error is thrown exactly when a required descriptor misses a requested name, and it names exactly the misses; an optional descriptor never throws it |
| Resolver.StringSelectsLikeSingletonArray | index.js:152-153 | a string option resolves exactly as the one-element array holding it |
| Resolver.Then | index.js:126-188 | running one step after another keeps the first step's imports in front, succeeds exactly when both succeed, and carries the error of the step that threw; when the first step threw, its outcome is the whole result, so the second step adds no import |
| Resolver.Chain | index.js:126-188 | a chain of steps succeeds exactly when every step does; otherwise it carries the error of the first step that threw |
| Resolver.ChainStopsAtFirstThrow | index.js:126-188 | when step `i` is the first to throw, the chain's outcome is that of the steps before it followed by step `i`; its imports are theirs plus step `i`'s, and later steps add none |
| Resolver.ResolveAssetsStopsAtFirstThrow | index.js:126-188 | the build succeeds exactly when every descriptor resolves; otherwise it fails with the error of the first descriptor that threw |
| Resolver.NothingAfterFirstThrow | index.js:126-188 | when descriptor `i` is the first to throw, the build's outcome is that of the descriptors before it followed by descriptor `i`: its imports are theirs plus descriptor `i`'s own, and no later descriptor imports anything |
| Resolver.ResolveAssetsAppend | index.js:126-188 | resolving `a + b` is resolving `a`, then `b` only if `a` did not throw, with the imports concatenated |
| Resolver.ChainAppend | index.js:126-188 | chaining step outcomes distributes over concatenation: a throw stops the chain and keeps the imports made before it |
| Resolver.ScriptFound | index.js:94-99 | with `js/plugins` and `js/third_party` both listable, a plugin whose script is in `js/plugins` gets exactly one script import |
| Resolver.ScriptMissing | index.js:94-99 | with `js/plugins` and `js/third_party` both listable, a plugin whose script is in neither is reported missing under "Plugin(s)", with no import |
| Resolver.StyleSkipped | index.js:100-106 | with `css/plugins` and `css/third_party` both listable, a plugin whose stylesheet is in neither gets no stylesheet import and no error |
| Resolver.UnknownPluginAborts | index.js:93-187 | `plugins: "name"` with no script for `name` aborts the build with the missing-file error for exactly `[name]`, before any plugin import |
| Resolver.PluginWithoutStylesheetBuilds | index.js:93-187 | `plugins: "name"` with a script but no stylesheet builds with exactly one import |
| Resolver.Message | index.js:155-186 | both thrown messages start with the addon name and `": "`; the unreadable-directory message names the directory |
| Resolver.MissingMessageNamesEveryFile | index.js:181-187 | the missing-file message contains the descriptor's label and every missing name as `join(', ')` renders it |
| Resolver.InvalidTypeMessageNamesLabel | index.js:154-160 | the type-error message contains the descriptor's label |
| Discovery.Put | index.js:133 | a property write: the name maps to the new path and other names are unchanged; a new name is appended to the key order and an overwritten name keeps its position |
| Discovery.PutDir | index.js:132-134 | after one directory, every listed name maps to a path in that directory, and names it does not list keep their old path |
| Discovery.PutDirKeyOrder | index.js:131-135 | the key order after a directory is the first-seen order of the old keys followed by the listed names |
| Discovery.BuildIndex | index.js:131-135 | the scan fails exactly when some directory cannot be listed, and it names the first such directory, every earlier one having been listed; otherwise the index is well formed |
| Discovery.BuildIndexKeyOrder | index.js:131-135 | the index's keys are all listed names, de-duplicated in first-seen order |
| Discovery.LastDirectoryWins | index.js:131-135 | a name maps into the last directory that lists it |
| Discovery.IndexedIffListed | index.js:131-135 | a name is indexed exactly when some directory lists it |
| Selection.Classify | index.js:142-161 | the `typeof` tests: a boolean selects everything, a string the one-element list of itself, an array its own elements, and any other value is rejected |
| Selection.Key | index.js:169 | the looked-up name is `String(v)` followed by the extension; a string or a one-string array gives that string plus the extension |
| Selection.FirstDotPrefix | index.js:146 | `split('.')[0]` is a dot-free prefix of the name, followed in the name by a dot unless it is the whole name |
| Selection.AllNames | index.js:144-151 | `true` expands to a duplicate-free list holding exactly the first-dot prefixes of the indexed names |
| Selection.AllNamesInFirstSeenOrder | index.js:148-151 | that list is in the order in which each prefix first appears among the keys |
| Selection.AllImportsEveryPlainFile | index.js:142-178 | when every indexed file is a dot-free name plus the extension, `true` imports each file once and misses nothing |
| Selection.AllTruncatesDottedNames | index.js:146 | with `true`, a file `a.b.min.js` is requested as `a` and reported missing |
| Selection.LookupAll | index.js:164-178 | every requested occurrence yields exactly one import or one miss |
| Selection.LookupAllSpec | index.js:164-178 | every requested occurrence is either imported or missed; a name is missed exactly when `name + ext` is not indexed; every found name is imported |
| Selection.LookupAppend | index.js:164-178 | the lookup of `a + b` is the lookup of `a` followed by that of `b`, so imports and misses stay in request order |
| Selection.LookupOne | index.js:166-177 | a single name is imported once when found and missed otherwise |
| Selection.ImportPathFromLastDirectory | index.js:131-177 | a found name is imported from below the node path, in the last directory that lists `name + ext` |
| Sequences.Dedup | index.js:148-151 | the de-duplicated list is duplicate-free and holds exactly the input's elements |
| Sequences.DedupKeepsFirstOccurrenceOrder | index.js:148-151 | de-duplication keeps elements in the order of their first occurrence |
| Sequences.DedupSnoc | index.js:148-151 | one more element leaves the de-duplicated list unchanged when it is already there, and goes last otherwise |
| Sequences.DedupOfDistinct | index.js:148-151 | de-duplicating a duplicate-free list returns it unchanged |
| JsValue.NatToDecimalRoundTrip | index.js:169 | the decimal text a number contributes to `file + ext` is canonical (digits only, no leading zero unless it is `"0"`) and reads back as that number |
| JsValue.CanonicalDecimalIsUnique | index.js:169 | a canonical digit string is the text `NatToDecimal` writes for the number it denotes; no other text denotes that number canonically, so for a safe integer the text is the one `String(n)` writes |
| JsValue.ToStr | index.js:169 | `String(v)` as `file + ext` uses it: a string is itself; a non-negative number converts to canonical digits of its value; `[]` converts to `""`; a one-element array converts like its element |
| JsValue.Truthy | index.js:93-116 | a value is falsy exactly when it is `undefined`, `null`, `false`, `0` or `""`; every other value, every array (the empty one included) and every object, is truthy |
| JsValue.JoinValuesContainsElements | index.js:185 | every element's text occurs in the `join` of the list |

## Left out

- `init()` and its ember-cli and ember-source version assertions (index.js:28-43) are an external tool's check, not resolver logic.
- The `autoImport` exclusion (index.js:15-19) is static build configuration.
- `this._super.included` (index.js:47) calls into ember-cli code that is not part of this model.
- `require.resolve` of the library root (index.js:9): directories in the listing are relative to that root, which is not modelled.
- `path.join` is plain concatenation with `/`. Normalisation of `.` and `..` segments and Windows separators are not modelled.
- `fs.readdirSync`: a directory's listing is an input, in the order the model receives it. A directory missing from the listing raises `UnreadableDir`, whose message text stands in for Node's. Other file-system errors are not modelled.
- `this.ui.writeDeprecateLine` is a boolean on the result; the notice text is not modelled.
- Object key order: JavaScript orders integer-like keys before other keys, and treats `__proto__` specially. File names of that shape are not distinguished from other names.
- Option values: numbers are JavaScript's safe integers (|n| < 2^53), all of which print in plain decimal. Larger integers, including those between 2^53 and 10^21 that a double still holds exactly, fractions, `NaN`, `Infinity` and the exponent form `String` uses from 10^21 are not modelled.
- JsValue.ToStr: `Obj` is a plain object without a `toString` of its own, so it converts to `"[object Object]"`. Functions and regular expressions, which convert to their source text, are not modelled as option values.
- A non-object truthy option block (index.js:55) is not modelled; a block is absent or a map from keys to values.
- Addon.Included: the hook's `app` argument is always a host. When neither a level's own `app` nor the argument is set, `app.options` at index.js:55 throws a `TypeError`; that error is not modelled.
- The addon's package name is a parameter of `Resolver.Message`.
- After a descriptor throws, the model still computes the later descriptors' outcomes, but `Resolver.Then` discards them (its contract says a thrown first step is the whole result). The effect on the build is the same.
- Addon.Included: its contract states the base prefix, the FastBoot case and the notice. What resolution does after the base imports is stated by the Resolver lemmas about `ResolveAssets` and `Descriptors`, not repeated here.
- Resolver.PluginWithoutStylesheetBuilds: stated for a build where languages and themes are off, to isolate the plugin pair.
- Resolver.UnknownPluginAborts: requires a non-empty name, because the empty string is falsy and yields no descriptor at all.
- The model reproduces two quirks of the code rather than what its comments suggest:
  - `x !== []` at index.js:93, 108 and 116 compares against a fresh array and is always true. So `[]` counts as truthy and yields a descriptor that imports nothing.
  - The `// remove extensions` comment at index.js:146 sits on `split('.')[0]`, which keeps the text before the first dot. So `a.b.min.js` becomes `a` and is then reported missing.

=== FILE: discovery.dfy ===
/** The `pathFiles` object `included(app)` builds for one asset descriptor:
    every file name found in the descriptor's directories, mapped to its
    path relative to the library root. A plain JavaScript object keeps its
    keys in insertion order, and assigning to an existing key leaves that
    key where it was; `Index` records both the order and the values. */
module Discovery {
  import opened Sequences
  import opened Paths

  datatype Index = Index(keys: seq<string>, paths: map<string, string>)

  /** The key list has no repetitions and holds exactly the mapped names. */
  ghost predicate Valid(ix: Index) {
    && Distinct(ix.keys)
    && (forall k :: k in ix.paths <==> k in ix.keys)
  }

  const Empty: Index := Index([], map[])

  /** `pathFiles[name] = path`. A new key goes last; an overwritten key
      keeps its original position and takes the new value. */
  function Put(ix: Index, name: string, path: string): (r: Index)
    requires Valid(ix)
    ensures Valid(r)
    ensures name in r.paths && r.paths[name] == path
    ensures forall k :: k != name ==> (k in r.paths <==> k in ix.paths)
    ensures forall k :: k != name && k in ix.paths ==> r.paths[k] == ix.paths[k]
    ensures name in ix.paths ==> r.keys == ix.keys
    ensures name !in ix.paths ==> r.keys == ix.keys + [name]
  {
    if name in ix.paths then Index(ix.keys, ix.paths[name := path])
    else Index(ix.keys + [name], ix.paths[name := path])
  }

  /** The inner `forEach` over one directory listing: each entry `f` is
      recorded as `path.join(dir, f)`. Keys come out in first-seen order;
      every name of this directory now points into it; every other name is
      left as it was. */
  function PutDir(ix: Index, dir: string, files: seq<string>): (r: Index)
    requires Valid(ix)
    ensures Valid(r)
    ensures forall k :: k in r.paths <==> k in ix.paths || k in files
    ensures forall k :: k in files ==> r.paths[k] == Join(dir, k)
    ensures forall k :: k in ix.paths && k !in files ==> r.paths[k] == ix.paths[k]
  {
    if |files| == 0 then ix
    else
      var front := files[..|files| - 1];
      var f := files[|files| - 1];
      assert files == front + [f];
      Put(PutDir(ix, dir, front), f, Join(dir, f))
  }

  /** The keys of `PutDir` come out in first-seen order over the old keys
      followed by the directory's entries. */
  lemma {:induction false} PutDirKeyOrder(ix: Index, dir: string, files: seq<string>)
    requires Valid(ix)
    ensures PutDir(ix, dir, files).keys == Dedup(ix.keys + files)
  {
    if |files| == 0 {
      assert ix.keys + files == ix.keys;
      DedupOfDistinct(ix.keys);
    } else {
      var front := files[..|files| - 1];
      var f := files[|files| - 1];
      assert ix.keys + files == (ix.keys + front) + [f];
      PutDirKeyOrder(ix, dir, front);
      DedupSnoc(ix.keys + front, f);
    }
  }

  /** The names listed in `dirs`, directory after directory. */
  function AllFiles(dirs: seq<string>, listing: map<string, seq<string>>): seq<string>
    requires forall i :: 0 <= i < |dirs| ==> dirs[i] in listing
  {
    if |dirs| == 0 then []
    else AllFiles(dirs[..|dirs| - 1], listing) + listing[dirs[|dirs| - 1]]
  }

  /** Outcome of the outer `forEach`: an index, or the first directory that
      `fs.readdirSync` cannot list. */
  datatype Discovered = Listed(index: Index) | Unreadable(dir: string)

  /** `dirs[i]` cannot be listed and every directory before it can: the
      directory the scan stops at. */
  predicate FirstUnlisted(dirs: seq<string>, listing: map<string, seq<string>>, i: nat)
    requires i < |dirs|
  {
    dirs[i] !in listing && forall j :: 0 <= j < i ==> dirs[j] in listing
  }

  /** Discovery over `dirs`, with `listing` standing for the file system:
      `listing[d]` is what `fs.readdirSync` returns for `d`, and a directory
      absent from `listing` makes it throw. */
  function BuildIndex(dirs: seq<string>, listing: map<string, seq<string>>): (r: Discovered)
    ensures r.Unreadable? <==> exists i :: 0 <= i < |dirs| && dirs[i] !in listing
    ensures r.Unreadable? ==> r.dir in dirs && r.dir !in listing
    ensures r.Unreadable? ==> exists i :: 0 <= i < |dirs| && dirs[i] == r.dir && FirstUnlisted(dirs, listing, i)
    ensures r.Listed? ==> Valid(r.index)
  {
    if |dirs| == 0 then Listed(Empty)
    else
      var front := dirs[..|dirs| - 1];
      var d := dirs[|dirs| - 1];
      assert forall i :: 0 <= i < |front| ==> front[i] == dirs[i];
      match BuildIndex(front, listing)
      case Unreadable(bad) =>
        assert exists i :: 0 <= i < |front| && front[i] == bad && FirstUnlisted(front, listing, i);
        var i :| 0 <= i < |front| && front[i] == bad && FirstUnlisted(front, listing, i);
        assert FirstUnlisted(dirs, listing, i);
        Unreadable(bad)
      case Listed(ix) =>
        if d !in listing then
          assert FirstUnlisted(dirs, listing, |dirs| - 1);
          Unreadable(d)
        else
          Listed(PutDir(ix, d, listing[d]))
  }

  /** The index keys are every listed name, once, in first-seen order. */
  lemma {:induction false} BuildIndexKeyOrder(dirs: seq<string>, listing: map<string, seq<string>>)
    requires BuildIndex(dirs, listing).Listed?
    ensures BuildIndex(dirs, listing).index.keys == Dedup(AllFiles(dirs, listing))
  {
    if |dirs| > 0 {
      var front := dirs[..|dirs| - 1];
      var d := dirs[|dirs| - 1];
      assert forall i :: 0 <= i < |front| ==> front[i] == dirs[i];
      BuildIndexKeyOrder(front, listing);
      var ix := BuildIndex(front, listing).index;
      DedupAppend(AllFiles(front, listing), listing[d]);
      PutDirKeyOrder(ix, d, listing[d]);
    }
  }

  /** Deduplicating a prefix first does not change the overall result. */
  lemma {:induction false} DedupAppend(p: seq<string>, q: seq<string>)
    ensures Dedup(Dedup(p) + q) == Dedup(p + q)
  {
    if |q| == 0 {
      assert Dedup(p) + q == Dedup(p);
      assert p + q == p;
      DedupOfDistinct(Dedup(p));
    } else {
      var front := q[..|q| - 1];
      var x := q[|q| - 1];
      DedupAppend(p, front);
      var a := Dedup(p) + q;
      var b := p + q;
      assert a[..|a| - 1] == Dedup(p) + front && a[|a| - 1] == x;
      assert b[..|b| - 1] == p + front && b[|b| - 1] == x;
    }
  }

  /** A name maps into the last directory that lists it ("last directory
      wins"), whatever earlier directories held. */
  lemma {:induction false} LastDirectoryWins(dirs: seq<string>, listing: map<string, seq<string>>, i: nat, name: string)
    requires BuildIndex(dirs, listing).Listed?
    requires i < |dirs| && name in listing[dirs[i]]
    requires forall j :: i < j < |dirs| ==> name !in listing[dirs[j]]
    ensures name in BuildIndex(dirs, listing).index.paths
    ensures BuildIndex(dirs, listing).index.paths[name] == Join(dirs[i], name)
  {
    var front := dirs[..|dirs| - 1];
    assert forall j :: 0 <= j < |front| ==> front[j] == dirs[j];
    if i < |dirs| - 1 {
      LastDirectoryWins(front, listing, i, name);
    }
  }

  /** A name is indexed exactly when some directory lists it. */
  lemma {:induction false} IndexedIffListed(dirs: seq<string>, listing: map<string, seq<string>>, name: string)
    requires BuildIndex(dirs, listing).Listed?
    ensures name in BuildIndex(dirs, listing).index.paths
            <==> exists i :: 0 <= i < |dirs| && name in listing[dirs[i]]
  {
    if |dirs| > 0 {
      var front := dirs[..|dirs| - 1];
      assert forall j :: 0 <= j < |front| ==> front[j] == dirs[j];
      IndexedIffListed(front, listing, name);
    }
  }
}

=== FILE: included.dfy ===
/** The whole `included(app)` hook: option merge, deprecation notice, base
    imports, the FastBoot early return, and asset resolution. The file
    system, the FastBoot global and the import sink are explicit: the
    directory listing and the FastBoot flag are inputs, and the imports are
    returned in the order they are registered. */
module Addon {
  import opened Paths
  import opened OptionMerge
  import opened Resolver

  /** The editor script, its two stylesheets and the vendor shim, imported
      on every build before anything else. */
  const BaseImports: seq<string> := [
    Join(Join(NodePath, "js"), "froala_editor.min.js"),
    Join(Join(NodePath, "css"), "froala_editor.css"),
    Join(Join(NodePath, "css"), "froala_style.css"),
    Join(Join("vendor", "shims"), "froala-editor.js")
  ]

  /** What one call of the hook leaves behind: whether the deprecation
      notice was written, and the imports with the error, if any, that
      ended the call. */
  datatype Build = Build(deprecationNotice: bool, outcome: Outcome)

  /** `included(app)`. `start` is the `app` argument, `levels` the consumer
      chain from this addon outwards (never empty: the `do … while` visits
      the addon itself), `fastBoot` whether the `FastBoot`
      global is defined, and `listing` the file system below the library
      root. */
  function Included(start: Host, levels: seq<Consumer>, fastBoot: bool, listing: map<string, seq<string>>): (b: Build)
    requires |levels| > 0
    ensures |b.outcome.imports| >= |BaseImports| && b.outcome.imports[..|BaseImports|] == BaseImports
    ensures fastBoot ==> b.outcome == Registered(BaseImports)
    ensures b.deprecationNotice <==> !DeclaredSomewhere(VisitedHosts(start, levels), "plugins")
  {
    var hosts := VisitedHosts(start, levels);
    var merged := MergeChain(start, levels);
    DeprecationIffPluginsNeverDeclared(hosts);
    var assets := if fastBoot then Registered([]) else ResolveAssets(Descriptors(EffectiveOptions(merged)), listing);
    BaseImportsComeFirst(assets);
    Build(DeprecationNotice(merged), Then(Registered(BaseImports), assets))
  }

  /** Whatever the resolution does, the base imports stay in front. */
  lemma BaseImportsComeFirst(assets: Outcome)
    ensures |Then(Registered(BaseImports), assets).imports| >= |BaseImports|
    ensures Then(Registered(BaseImports), assets).imports[..|BaseImports|] == BaseImports
    ensures assets == Registered([]) ==> Then(Registered(BaseImports), assets) == Registered(BaseImports)
  {
    assert Then(Registered(BaseImports), assets).imports == BaseImports + assets.imports;
    assert BaseImports + [] == BaseImports;
  }
}

=== FILE: js_value.dfy ===
/** The JavaScript values that can appear in an addon option block, with the
    two conversions the option resolver relies on: truthiness (`if (x)`) and
    string conversion (`file + extension`, `list.join(', ')`). */
module JsValue {

  /** JavaScript's safe integers, |n| < 2^53. All of them are below 10^21,
      so `String(n)` writes them in plain decimal. */
  type SafeInt = n: int | -0x20_0000_0000_0000 < n < 0x20_0000_0000_0000

  /** `Obj` stands for a plain object, which converts to
      `"[object Object]"`; `Num` for an integral number. */
  datatype JsVal =
    | Undefined
    | Null
    | Bool(b: bool)
    | Num(n: SafeInt)
    | Str(s: string)
    | Arr(items: seq<JsVal>)
    | Obj

  /** JavaScript truthiness. Every array is truthy, the empty one included,
      which is why `x && x !== []` is the same test as `x`. */
  predicate Truthy(v: JsVal)
    ensures Truthy(v) <==> !(v.Undefined? || v.Null? || v == Bool(false) || v == Num(0) || v == Str(""))
  {
    match v
    case Undefined => false
    case Null => false
    case Bool(b) => b
    case Num(n) => n != 0
    case Str(s) => s != ""
    case Arr(_) => true
    case Obj => true
  }

  /** The character for decimal digit `d`. */
  function DigitChar(d: nat): (c: char)
    requires d < 10
    ensures '0' <= c <= '9' && (c - '0') as nat == d
  {
    ('0' as int + d) as char
  }

  /** Decimal digits of a natural number, most significant first, with no
      leading zero. */
  function NatToDecimal(n: nat): (r: string)
    ensures |r| > 0
    ensures forall i :: 0 <= i < |r| ==> '0' <= r[i] <= '9'
    ensures r[0] == '0' <==> n == 0
    decreases n
  {
    if n < 10 then [DigitChar(n)]
    else NatToDecimal(n / 10) + [DigitChar(n % 10)]
  }

  /** The number a string of decimal digits denotes. */
  function DecimalValue(s: string): nat
    requires forall i :: 0 <= i < |s| ==> '0' <= s[i] <= '9'
  {
    if |s| == 0 then 0
    else 10 * DecimalValue(s[..|s| - 1]) + (s[|s| - 1] - '0') as nat
  }

  /** A digit string in the form `String(n)` uses for a safe integer: at
      least one digit, and no leading zero unless it is `"0"`. */
  predicate Canonical(s: string) {
    && |s| > 0
    && (forall i :: 0 <= i < |s| ==> '0' <= s[i] <= '9')
    && (s[0] == '0' ==> |s| == 1)
  }

  /** The digits `NatToDecimal` writes are canonical and denote the number
      it was given. */
  lemma {:induction false} NatToDecimalRoundTrip(n: nat)
    ensures Canonical(NatToDecimal(n))
    ensures DecimalValue(NatToDecimal(n)) == n
  {
    if n >= 10 {
      var r := NatToDecimal(n);
      assert r[..|r| - 1] == NatToDecimal(n / 10);
      NatToDecimalRoundTrip(n / 10);
    }
  }

  /** A canonical digit string is the one `NatToDecimal` writes for the
      number it denotes: no other text denotes that number canonically. */
  lemma {:induction false} CanonicalDecimalIsUnique(s: string)
    requires Canonical(s)
    ensures s == NatToDecimal(DecimalValue(s))
  {
    if |s| == 1 {
      SingleDigitUnique(s);
    } else {
      var front := s[..|s| - 1];
      assert front[0] == s[0];
      assert Canonical(front);
      LeadingDigitPositive(front);
      CanonicalDecimalIsUnique(front);
      assert s == front + [s[|s| - 1]];
      AppendDigit(front, s[|s| - 1]);
    }
  }

  /** A single digit is the text of the number it denotes. */
  lemma SingleDigitUnique(s: string)
    requires |s| == 1 && '0' <= s[0] <= '9'
    ensures s == NatToDecimal(DecimalValue(s))
  {
    assert s[..0] == [];
    assert DecimalValue(s) == (s[0] - '0') as nat;
  }

  /** Appending a digit to the text of a positive number gives the text of
      ten times it plus that digit. */
  lemma AppendDigit(front: string, c: char)
    requires forall i :: 0 <= i < |front| ==> '0' <= front[i] <= '9'
    requires DecimalValue(front) > 0 && front == NatToDecimal(DecimalValue(front))
    requires '0' <= c <= '9'
    ensures front + [c] == NatToDecimal(DecimalValue(front + [c]))
  {
    var s := front + [c];
    assert s[..|s| - 1] == front;
    var q, d := DecimalValue(front), (c - '0') as nat;
    var n := DecimalValue(s);
    assert n == 10 * q + d;
    DivModDigit(q, d);
    assert NatToDecimal(n) == NatToDecimal(q) + [DigitChar(d)];
    assert DigitChar(d) == c;
  }

  lemma DivModDigit(q: nat, d: nat)
    requires d < 10
    ensures (10 * q + d) / 10 == q && (10 * q + d) % 10 == d
  {
  }

  /** A digit string with a non-zero first digit denotes a positive number. */
  lemma {:induction false} LeadingDigitPositive(s: string)
    requires |s| > 0 && s[0] != '0'
    requires forall i :: 0 <= i < |s| ==> '0' <= s[i] <= '9'
    ensures DecimalValue(s) > 0
  {
    if |s| > 1 {
      var front := s[..|s| - 1];
      assert front[0] == s[0];
      LeadingDigitPositive(front);
    } else {
      assert s[..0] == [];
    }
  }

  /** `String(n)` for an integral number. */
  function IntToDecimal(n: int): string {
    if n < 0 then "-" + NatToDecimal(-n) else NatToDecimal(n)
  }

  /** `parts.join(sep)`. */
  function JoinStrings(parts: seq<string>, sep: string): string {
    if |parts| == 0 then ""
    else if |parts| == 1 then parts[0]
    else JoinStrings(parts[..|parts| - 1], sep) + sep + parts[|parts| - 1]
  }

  /** `String(v)`: what `v + ".css"` puts in front of the extension. An
      array converts as `join(",")` of its elements, in which `null` and
      `undefined` elements become empty. */
  function ToStr(v: JsVal): (r: string)
    ensures v.Str? ==> r == v.s
    ensures v.Num? && v.n >= 0 ==> Canonical(r) && DecimalValue(r) == v.n
    ensures v.Arr? && |v.items| == 0 ==> r == ""
    ensures v.Arr? && |v.items| == 1
            ==> r == if v.items[0].Undefined? || v.items[0].Null? then "" else ToStr(v.items[0])
    decreases v
  {
    match v
    case Undefined => "undefined"
    case Null => "null"
    case Bool(b) => if b then "true" else "false"
    case Num(n) =>
      NatToDecimalRoundTrip(if n < 0 then -n else n);
      IntToDecimal(n)
    case Str(s) => s
    case Arr(items) =>
      JoinStrings(seq(|items|, i requires 0 <= i < |items| =>
                        if items[i].Undefined? || items[i].Null? then "" else ToStr(items[i])), ",")
    case Obj => "[object Object]"
  }

  /** How `Array.prototype.join` writes one element. */
  function JoinElement(v: JsVal): string {
    if v.Undefined? || v.Null? then "" else ToStr(v)
  }

  /** `list.join(sep)` for a list of JavaScript values. */
  function JoinValues(list: seq<JsVal>, sep: string): (r: string)
  {
    JoinStrings(seq(|list|, i requires 0 <= i < |list| => JoinElement(list[i])), sep)
  }

  /** `t` occurs in `s` starting at position `i`. */
  predicate OccursAt(s: string, t: string, i: int) {
    0 <= i <= |s| - |t| && s[i..i + |t|] == t
  }

  /** `t` occurs in `s` as a contiguous piece. */
  ghost predicate Contains(s: string, t: string) {
    exists i :: OccursAt(s, t, i)
  }

  /** Every part of a join occurs in the joined string. */
  lemma {:induction false} JoinStringsContainsParts(parts: seq<string>, sep: string, k: nat)
    requires k < |parts|
    ensures Contains(JoinStrings(parts, sep), parts[k])
  {
    var n := |parts|;
    if n == 1 {
      assert OccursAt(JoinStrings(parts, sep), parts[0], 0);
    } else {
      var front := JoinStrings(parts[..n - 1], sep);
      var whole := JoinStrings(parts, sep);
      assert whole == front + sep + parts[n - 1];
      if k == n - 1 {
        var o := |front| + |sep|;
        assert OccursAt(whole, parts[k], o);
      } else {
        JoinStringsContainsParts(parts[..n - 1], sep, k);
        assert parts[..n - 1][k] == parts[k];
        var o :| OccursAt(front, parts[k], o);
        assert whole[o..o + |parts[k]|] == front[o..o + |parts[k]|];
        assert OccursAt(whole, parts[k], o);
      }
    }
  }

  /** Text found in a piece is found in anything built around that piece. */
  lemma ContainsInContext(a: string, s: string, b: string, t: string)
    requires Contains(s, t)
    ensures Contains(a + s + b, t)
  {
    var o :| OccursAt(s, t, o);
    assert (a + s + b)[|a| + o..|a| + o + |t|] == s[o..o + |t|];
    assert OccursAt(a + s + b, t, |a| + o);
  }

  /** Every element of a list appears, as `join` writes it, in the joined text. */
  lemma JoinValuesContainsElements(list: seq<JsVal>, sep: string, k: nat)
    requires k < |list|
    ensures Contains(JoinValues(list, sep), JoinElement(list[k]))
  {
    var parts := seq(|list|, i requires 0 <= i < |list| => JoinElement(list[i]));
    JoinStringsContainsParts(parts, sep, k);
  }
}

=== FILE: option_merge.dfy ===
/** Stage one of `included(app)`: the option block for this addon, collected
    from every level of the chain of nested consumers and merged with the
    addon's defaults. */
module OptionMerge {
  import opened Optional
  import opened JsValue

  /** One option object: a property name for each own key. */
  type Block = map<string, JsVal>

  /** A host application as the walk sees it: `block` is
      `app.options[addonName]` when `app.options` exists and that entry is
      truthy, and `Absent` otherwise. */
  datatype Host = Host(block: Maybe<Block>)

  /** One level of the consumer chain. `app` is the level's own `app`
      reference, `Absent` when the level has none. */
  datatype Consumer = Consumer(app: Maybe<Host>)

  /** `Object.assign(target, source)`: every own key of `source` is copied
      onto `target`, overwriting it. */
  function Assign(target: Block, source: Block): (r: Block)
    ensures r.Keys == target.Keys + source.Keys
    ensures forall k :: k in source ==> r[k] == source[k]
    ensures forall k :: k in target && k !in source ==> r[k] == target[k]
  {
    target + source
  }

  /** `h` has an option block that declares `key`. */
  predicate Declares(h: Host, key: string) {
    h.block.Present? && key in h.block.value
  }

  /** The host each iteration of the walk merges: the level's own `app`,
      or, through `app = current.app || app`, the one the previous level
      used (the `app` argument of `included` before the first level).
      `levels[0]` is the addon itself and the last level is the outermost
      one, whose parent is the project. */
  function VisitedHosts(start: Host, levels: seq<Consumer>): (r: seq<Host>)
    ensures |r| == |levels|
    ensures forall i :: 0 <= i < |levels| && levels[i].app.Present? ==> r[i] == levels[i].app.value
    ensures forall i :: 0 < i < |levels| && levels[i].app.Absent? ==> r[i] == r[i - 1]
    ensures |levels| > 0 && levels[0].app.Absent? ==> r[0] == start
  {
    if |levels| == 0 then []
    else
      var prior := VisitedHosts(start, levels[..|levels| - 1]);
      var fallback := if |prior| == 0 then start else prior[|prior| - 1];
      prior + [levels[|levels| - 1].app.Or(fallback)]
  }

  /** The loop's accumulator after visiting `hosts`, innermost first:
      `appOptions = Object.assign(appOptions, app.options[name])` whenever
      the host has a block. A key is present exactly when some host
      declares it. */
  function MergeHosts(hosts: seq<Host>): (r: Block)
    ensures forall k :: k in r <==> exists i :: 0 <= i < |hosts| && Declares(hosts[i], k)
  {
    if |hosts| == 0 then map[]
    else
      var p := hosts[..|hosts| - 1];
      assert forall i :: 0 <= i < |p| ==> p[i] == hosts[i];
      var prior := MergeHosts(p);
      var h := hosts[|hosts| - 1];
      if h.block.Present? then Assign(prior, h.block.value) else prior
  }

  /** Precedence of the merge: a key takes its value from the LAST
      (outermost) host that declares it. */
  lemma {:induction false} OutermostDeclarationWins(hosts: seq<Host>, i: nat, key: string)
    requires i < |hosts| && Declares(hosts[i], key)
    requires forall j :: i < j < |hosts| ==> !Declares(hosts[j], key)
    ensures key in MergeHosts(hosts)
    ensures MergeHosts(hosts)[key] == hosts[i].block.value[key]
  {
    var n := |hosts|;
    var p := hosts[..n - 1];
    var h := hosts[n - 1];
    if i < n - 1 {
      assert p[i] == hosts[i];
      assert forall j :: i < j < |p| ==> p[j] == hosts[j];
      OutermostDeclarationWins(p, i, key);
      assert !Declares(h, key);
      if h.block.Present? {
        assert key !in h.block.value;
        assert MergeHosts(hosts) == Assign(MergeHosts(p), h.block.value);
      } else {
        assert MergeHosts(hosts) == MergeHosts(p);
      }
    } else {
      assert MergeHosts(hosts) == Assign(MergeHosts(p), h.block.value);
    }
  }

  /** The merged option block of the whole chain. */
  function MergeChain(start: Host, levels: seq<Consumer>): (r: Block)
    ensures forall k :: k in r <==> DeclaredSomewhere(VisitedHosts(start, levels), k)
  {
    MergeHosts(VisitedHosts(start, levels))
  }

  /** The option names the resolver consults. */
  const CategoryKeys: set<string> := {"languages", "plugins", "themes"}

  /** `defaultOptions`: every category disabled. */
  const Defaults: Block := map["languages" := Bool(false), "plugins" := Bool(false), "themes" := Bool(false)]

  /** `Object.assign({}, defaultOptions, appOptions)`: a declared key keeps
      its declared value, whatever it is; an undeclared category is `false`;
      no other key is added. */
  function EffectiveOptions(merged: Block): (r: Block)
    ensures forall k :: k in r <==> k in merged || k in CategoryKeys
    ensures forall k :: k in merged ==> r[k] == merged[k]
    ensures forall k :: k in CategoryKeys && k !in merged ==> r[k] == Bool(false)
  {
    Assign(Assign(map[], Defaults), merged)
  }

  /** The deprecation notice about the changed `plugins` default is written
      when the merged block has no own `plugins` key. */
  predicate DeprecationNotice(merged: Block)
    ensures DeprecationNotice(merged) ==> EffectiveOptions(merged)["plugins"] == Bool(false)
  {
    "plugins" !in merged
  }

  /** The outermost level's own declaration of a key overrides every inner
      level, however deep the chain is. */
  lemma RootLevelWins(start: Host, levels: seq<Consumer>, key: string)
    requires |levels| > 0
    requires levels[|levels| - 1].app.Present? && Declares(levels[|levels| - 1].app.value, key)
    ensures key in MergeChain(start, levels)
    ensures MergeChain(start, levels)[key] == levels[|levels| - 1].app.value.block.value[key]
  {
    var hosts := VisitedHosts(start, levels);
    OutermostDeclarationWins(hosts, |hosts| - 1, key);
  }

  /** A level without its own `app` re-merges the block merged just before
      it, which changes nothing: `Object.assign` of the same block twice in
      a row is the same as once. */
  lemma {:induction false} RepeatedHostIsHarmless(hosts: seq<Host>, h: Host)
    ensures MergeHosts(hosts + [h, h]) == MergeHosts(hosts + [h])
  {
    assert (hosts + [h, h])[..|hosts| + 1] == hosts + [h];
    assert (hosts + [h])[..|hosts|] == hosts;
    if h.block.Present? {
      var m := MergeHosts(hosts + [h]);
      assert Assign(m, h.block.value) == m;
    }
  }

  /** Some host of the sequence declares `key`. */
  ghost predicate DeclaredSomewhere(hosts: seq<Host>, key: string) {
    exists i :: 0 <= i < |hosts| && Declares(hosts[i], key)
  }

  /** The notice is written exactly when no visited host declares `plugins`. */
  lemma DeprecationIffPluginsNeverDeclared(hosts: seq<Host>)
    ensures DeprecationNotice(MergeHosts(hosts)) <==> !DeclaredSomewhere(hosts, "plugins")
  {
  }

  /** The notice is observation only: declaring `plugins: false` silences it
      and leaves the effective options as they were. */
  lemma DeprecationLeavesOptionsAlone(merged: Block)
    requires DeprecationNotice(merged)
    ensures !DeprecationNotice(merged["plugins" := Bool(false)])
    ensures EffectiveOptions(merged["plugins" := Bool(false)]) == EffectiveOptions(merged)
  {
  }

  /** Every category of the effective options is `false` unless some
      host declares it; unrecognised keys pass through untouched. */
  lemma UndeclaredCategoryIsFalse(hosts: seq<Host>, key: string)
    ensures key in CategoryKeys && (forall i :: 0 <= i < |hosts| ==> !Declares(hosts[i], key))
            ==> EffectiveOptions(MergeHosts(hosts))[key] == Bool(false)
    ensures key !in CategoryKeys && key in MergeHosts(hosts)
            ==> EffectiveOptions(MergeHosts(hosts))[key] == MergeHosts(hosts)[key]
  {
  }
}

=== FILE: optional.dfy ===
/** A value that a JavaScript property may hold or lack: the `app` of a
    consumer level, and a host's option block for this addon. */
module Optional {

  datatype Maybe<+T> = Absent | Present(value: T) {

    /** `x || fallback` for a property that is either a truthy object or
        missing: the held value, else `fallback`. */
    function Or(fallback: T): T {
      if Present? then value else fallback
    }
  }
}

=== FILE: paths.dfy ===
/** Relative path construction. `path.join` is modelled as joining with a
    forward slash; the names joined never hold separators or `..`. */
module Paths {

  function Join(dir: string, name: string): string {
    dir + "/" + name
  }

  /** `path.join('node_modules', 'froala-editor')`: every asset import is
      registered below this directory. */
  const NodePath: string := Join("node_modules", "froala-editor")
}

=== FILE: resolver.dfy ===
/** Stage two of `included(app)`: the asset descriptors built from the
    effective options, and the resolution of each descriptor into imports
    or an error. */
module Resolver {
  import opened JsValue
  import opened Paths
  import opened Discovery
  import opened Selection

  /** One entry of `additionalAssets`. `files` is the option value the
      descriptor was built from; `dirs` are relative to the library root. */
  datatype Asset = Asset(category: Category, dirs: seq<string>, files: JsVal, ext: string, optional: bool)

  /** The four kinds of descriptor, in build order. */
  datatype Category = PluginScripts | PluginStyles | Languages | Themes

  /** The `label` each descriptor carries into its error messages. */
  function Label(c: Category): string {
    match c
    case PluginScripts => "Plugin(s)"
    case PluginStyles => "Plugin CSS"
    case Languages => "Language(s)"
    case Themes => "Themes(s)"
  }

  /** The errors `included` throws, and the one `fs.readdirSync` throws for
      a directory it cannot list. */
  datatype BuildError =
    | InvalidType(category: Category)
    | MissingFiles(category: Category, names: seq<JsVal>)
    | UnreadableDir(dir: string)

  /** The imports registered, in order, and whether an error stopped the
      build after them. */
  datatype Outcome = Registered(imports: seq<string>) | Thrown(imports: seq<string>, error: BuildError)

  /** `options[key]`, which is `undefined` for a missing key. */
  function Get(opts: map<string, JsVal>, key: string): JsVal {
    if key in opts then opts[key] else Undefined
  }

  /** The two descriptors a truthy `plugins` value yields: the scripts,
      required, and the stylesheets, optional. */
  function PluginAssets(v: JsVal): seq<Asset> {
    if Truthy(v) then [ScriptAsset(v), StyleAsset(v)] else []
  }

  function LanguageAssets(v: JsVal): seq<Asset> {
    if Truthy(v) then [Asset(Languages, [Join("js", "languages")], v, ".js", false)] else []
  }

  function ThemeAssets(v: JsVal): seq<Asset> {
    if Truthy(v) then [Asset(Themes, [Join("css", "themes")], v, ".css", false)] else []
  }

  /** The option key a descriptor is built from. */
  function OptionKey(c: Category): string {
    match c
    case PluginScripts => "plugins"
    case PluginStyles => "plugins"
    case Languages => "languages"
    case Themes => "themes"
  }

  /** The position of a kind of descriptor in the build order. */
  function Rank(c: Category): nat {
    match c
    case PluginScripts => 0
    case PluginStyles => 1
    case Languages => 2
    case Themes => 3
  }

  /** `additionalAssets` for the effective options. */
  function Descriptors(opts: map<string, JsVal>): (r: seq<Asset>)
    ensures |r| == (if Truthy(Get(opts, "plugins")) then 2 else 0)
                   + (if Truthy(Get(opts, "languages")) then 1 else 0)
                   + (if Truthy(Get(opts, "themes")) then 1 else 0)
  {
    Categories(Get(opts, "plugins"), Get(opts, "languages"), Get(opts, "themes"))
  }

  /** A descriptor exists for a category exactly when the category's value
      is truthy (two for `plugins`): a falsy value gets no discovery, no
      imports and no error. */
  lemma DescriptorsIffTruthy(opts: map<string, JsVal>)
    ensures Truthy(Get(opts, "plugins")) <==> exists a :: a in Descriptors(opts) && a.category == PluginScripts
    ensures Truthy(Get(opts, "plugins")) <==> exists a :: a in Descriptors(opts) && a.category == PluginStyles
    ensures Truthy(Get(opts, "languages")) <==> exists a :: a in Descriptors(opts) && a.category == Languages
    ensures Truthy(Get(opts, "themes")) <==> exists a :: a in Descriptors(opts) && a.category == Themes
  {
    var p, l, t := PluginAssets(Get(opts, "plugins")), LanguageAssets(Get(opts, "languages")), ThemeAssets(Get(opts, "themes"));
    assert Descriptors(opts) == p + l + t;
    assert forall a :: a in p ==> a.category == PluginScripts || a.category == PluginStyles;
    assert forall a :: a in l ==> a.category == Languages;
    assert forall a :: a in t ==> a.category == Themes;
  }

  /** Every descriptor carries its category's (truthy) value, extension and
      directories; only the plugin stylesheets are optional. */
  lemma DescriptorsCarryTheirValue(opts: map<string, JsVal>)
    ensures forall a :: a in Descriptors(opts) ==> Truthy(a.files) && a.files == Get(opts, OptionKey(a.category))
    ensures forall a :: a in Descriptors(opts) ==> (a.optional <==> a.category == PluginStyles)
    ensures forall a :: a in Descriptors(opts) && a.category == PluginScripts
                        ==> a.ext == ".min.js" && a.dirs == [Join("js", "plugins"), Join("js", "third_party")]
    ensures forall a :: a in Descriptors(opts) && a.category == PluginStyles
                        ==> a.ext == ".css" && a.dirs == [Join("css", "plugins"), Join("css", "third_party")]
    ensures forall a :: a in Descriptors(opts) && a.category == Languages
                        ==> a.ext == ".js" && a.dirs == [Join("js", "languages")]
    ensures forall a :: a in Descriptors(opts) && a.category == Themes
                        ==> a.ext == ".css" && a.dirs == [Join("css", "themes")]
  {
    var p, l, t := PluginAssets(Get(opts, "plugins")), LanguageAssets(Get(opts, "languages")), ThemeAssets(Get(opts, "themes"));
    assert Descriptors(opts) == p + l + t;
  }

  /** Descriptors come in the order plugin scripts, plugin stylesheets,
      languages, themes. */
  lemma DescriptorsInBuildOrder(opts: map<string, JsVal>)
    ensures forall i, j :: 0 <= i < j < |Descriptors(opts)|
                           ==> Rank(Descriptors(opts)[i].category) < Rank(Descriptors(opts)[j].category)
  {
    var p, l, t := PluginAssets(Get(opts, "plugins")), LanguageAssets(Get(opts, "languages")), ThemeAssets(Get(opts, "themes"));
    var r := Descriptors(opts);
    assert r == p + l + t;
    forall i, j | 0 <= i < j < |r|
      ensures Rank(r[i].category) < Rank(r[j].category)
    {
      if i < |p| {
        assert r[i] == p[i];
      } else if i < |p| + |l| {
        assert r[i] == l[i - |p|];
      }
      if j < |p| {
        assert r[j] == p[j];
      } else if j < |p| + |l| {
        assert r[j] == l[j - |p|];
      } else {
        assert r[j] == t[j - |p| - |l|];
      }
    }
  }

  /** The descriptors for the three category values. */
  function Categories(plugins: JsVal, languages: JsVal, themes: JsVal): seq<Asset> {
    PluginAssets(plugins) + LanguageAssets(languages) + ThemeAssets(themes)
  }

  /** One iteration of `additionalAssets.forEach`: discovery, selector
      classification, lookup with imports, then the missing-file check. The
      imports made before the missing-file error stay registered. */
  function ResolveAsset(a: Asset, listing: map<string, seq<string>>): (r: Outcome)
    ensures (r.Thrown? && r.error.UnreadableDir?) <==> BuildIndex(a.dirs, listing).Unreadable?
    ensures r.Thrown? && r.error.UnreadableDir? ==> r.imports == [] && r.error.dir in a.dirs
    ensures r.Thrown? && !r.error.UnreadableDir? ==> r.error.category == a.category
    ensures a.optional ==> !(r.Thrown? && r.error.MissingFiles?)
  {
    match BuildIndex(a.dirs, listing)
    case Unreadable(d) => Thrown([], UnreadableDir(d))
    case Listed(ix) => ResolveSelection(a.category, Classify(a.files), a.ext, a.optional, ix)
  }

  /** The part of one iteration after discovery, for the classified value. */
  function ResolveSelection(category: Category, sel: Selector, ext: string, optional: bool, ix: Index): Outcome {
    if sel.Invalid? then Thrown([], InvalidType(category))
    else
      var found := LookupAll(ix, ext, Requested(sel, ix));
      if |found.missing| > 0 && !optional then Thrown(found.registered, MissingFiles(category, found.missing))
      else Registered(found.registered)
  }

  /** The error cases of one descriptor. The type error is raised exactly
      for a value that is not a boolean, a string or an array, before
      anything is imported; the missing-file error exactly for a required
      descriptor with at least one requested value that is not found, and
      it names precisely those values; an optional descriptor never
      raises it. */
  lemma ResolveAssetErrors(a: Asset, listing: map<string, seq<string>>)
    requires BuildIndex(a.dirs, listing).Listed?
    ensures ResolveAsset(a, listing).Thrown? && ResolveAsset(a, listing).error.InvalidType?
            <==> !(a.files.Bool? || a.files.Str? || a.files.Arr?)
    ensures ResolveAsset(a, listing).Thrown? && ResolveAsset(a, listing).error.InvalidType?
            ==> ResolveAsset(a, listing).imports == [] && ResolveAsset(a, listing).error.category == a.category
    ensures a.optional ==> !(ResolveAsset(a, listing).Thrown? && ResolveAsset(a, listing).error.MissingFiles?)
    ensures (ResolveAsset(a, listing).Thrown? && ResolveAsset(a, listing).error.MissingFiles?)
            <==> (&& Classify(a.files) != Invalid
                  && !a.optional
                  && exists v :: v in Requested(Classify(a.files), BuildIndex(a.dirs, listing).index)
                                 && !Found(BuildIndex(a.dirs, listing).index, v, a.ext))
    ensures ResolveAsset(a, listing).Thrown? && ResolveAsset(a, listing).error.MissingFiles?
            ==> forall v :: v in ResolveAsset(a, listing).error.names
                            <==> (&& v in Requested(Classify(a.files), BuildIndex(a.dirs, listing).index)
                                  && !Found(BuildIndex(a.dirs, listing).index, v, a.ext))
  {
    var ix := BuildIndex(a.dirs, listing).index;
    var sel := Classify(a.files);
    if !sel.Invalid? {
      var req := Requested(sel, ix);
      LookupAllSpec(ix, a.ext, req);
      var found := LookupAll(ix, a.ext, req);
      if |found.missing| > 0 {
        assert found.missing[0] in found.missing;
      }
    }
  }

  /** A string selects like the one-element array holding it. */
  lemma StringSelectsLikeSingletonArray(a: Asset, s: string, listing: map<string, seq<string>>)
    ensures ResolveAsset(a.(files := Str(s)), listing) == ResolveAsset(a.(files := Arr([Str(s)])), listing)
  {
    assert Classify(Str(s)) == Classify(Arr([Str(s)]));
  }

  /** `[]` is truthy, so it yields a descriptor; once its directories are
      listed, that descriptor imports nothing and raises nothing. */
  lemma EmptyArrayImportsNothing(a: Asset, listing: map<string, seq<string>>)
    requires forall i :: 0 <= i < |a.dirs| ==> a.dirs[i] in listing
    ensures ResolveAsset(a.(files := Arr([])), listing) == Registered([])
  {
    var ix := BuildIndex(a.dirs, listing).index;
    assert Classify(Arr([])) == Named([]);
    assert Requested(Named([]), ix) == [];
    assert LookupAll(ix, a.ext, []) == Lookup([], []);
  }

  /** Running `first` and, unless it threw, `second` after it. */
  function Then(first: Outcome, second: Outcome): (r: Outcome)
    ensures |r.imports| >= |first.imports| && r.imports[..|first.imports|] == first.imports
    ensures r.Registered? <==> first.Registered? && second.Registered?
    ensures r.Thrown? ==> r.error == if first.Thrown? then first.error else second.error
    ensures first.Registered? ==> r.imports == first.imports + second.imports
    ensures first.Thrown? ==> r == first
  {
    match first
    case Thrown(_, _) => first
    case Registered(imports) =>
      match second
      case Registered(more) => Registered(imports + more)
      case Thrown(more, e) => Thrown(imports + more, e)
  }

  /** The outcomes of consecutive steps, combined: the imports of every
      step up to and including the first one that threw. */
  function Chain(steps: seq<Outcome>): (r: Outcome)
    ensures r.Registered? <==> forall i :: 0 <= i < |steps| ==> steps[i].Registered?
    ensures r.Thrown? ==> exists i :: 0 <= i < |steps| && FirstThrow(steps, i) && r.error == steps[i].error
  {
    if |steps| == 0 then Registered([])
    else
      var rest := Chain(steps[1..]);
      assert forall i :: 1 <= i < |steps| ==> steps[1..][i - 1] == steps[i];
      if steps[0].Registered? && rest.Thrown? then
        var k :| 0 <= k < |steps[1..]| && FirstThrow(steps[1..], k) && rest.error == steps[1..][k].error;
        assert FirstThrow(steps, k + 1);
        Then(steps[0], rest)
      else
        assert steps[0].Thrown? ==> FirstThrow(steps, 0);
        Then(steps[0], rest)
  }

  /** `steps[i]` is the first step that threw. */
  predicate FirstThrow(steps: seq<Outcome>, i: nat)
    requires i < |steps|
  {
    steps[i].Thrown? && forall j :: 0 <= j < i ==> steps[j].Registered?
  }

  /** The outcome of each descriptor on its own. */
  function AssetOutcomes(assets: seq<Asset>, listing: map<string, seq<string>>): (r: seq<Outcome>)
    ensures |r| == |assets|
    ensures forall i :: 0 <= i < |assets| ==> r[i] == ResolveAsset(assets[i], listing)
  {
    seq(|assets|, i requires 0 <= i < |assets| => ResolveAsset(assets[i], listing))
  }

  /** `additionalAssets.forEach`: descriptors are resolved in order and the
      first error stops the build, keeping every import made before it. */
  function ResolveAssets(assets: seq<Asset>, listing: map<string, seq<string>>): Outcome {
    Chain(AssetOutcomes(assets, listing))
  }

  /** The build succeeds exactly when every descriptor does; otherwise it
      fails with the error of the first descriptor that threw. */
  lemma ResolveAssetsStopsAtFirstThrow(assets: seq<Asset>, listing: map<string, seq<string>>)
    ensures ResolveAssets(assets, listing).Registered?
            <==> forall i :: 0 <= i < |assets| ==> ResolveAsset(assets[i], listing).Registered?
    ensures ResolveAssets(assets, listing).Thrown?
            ==> exists i :: 0 <= i < |assets| && FirstThrow(AssetOutcomes(assets, listing), i)
                            && ResolveAssets(assets, listing).error == ResolveAsset(assets[i], listing).error
  {
    var steps := AssetOutcomes(assets, listing);
    assert forall i :: 0 <= i < |assets| ==> steps[i] == ResolveAsset(assets[i], listing);
  }

  /** A chain ends at its first throwing step: the outcome is that of the
      steps before it followed by the throwing step, whose imports are the
      last ones. */
  lemma ChainStopsAtFirstThrow(steps: seq<Outcome>, i: nat)
    requires i < |steps| && FirstThrow(steps, i)
    ensures Chain(steps) == Then(Chain(steps[..i]), steps[i])
    ensures Chain(steps).imports == Chain(steps[..i]).imports + steps[i].imports
  {
    var pre, rest := steps[..i], steps[i..];
    assert steps == pre + rest;
    ChainAppend(pre, rest);
    ChainFromThrow(rest);
    assert forall j :: 0 <= j < |pre| ==> pre[j] == steps[j];
  }

  /** A chain whose first step threw is that step. */
  lemma ChainFromThrow(steps: seq<Outcome>)
    requires |steps| > 0 && steps[0].Thrown?
    ensures Chain(steps) == steps[0]
  {
    assert Chain(steps) == Then(steps[0], Chain(steps[1..]));
  }

  /** Once a descriptor throws, the build ends there: its outcome is that
      of the descriptors before it followed by the throwing one, and no
      later descriptor imports anything. */
  lemma NothingAfterFirstThrow(assets: seq<Asset>, listing: map<string, seq<string>>, i: nat)
    requires i < |assets| && FirstThrow(AssetOutcomes(assets, listing), i)
    ensures ResolveAssets(assets, listing) == Then(ResolveAssets(assets[..i], listing), ResolveAsset(assets[i], listing))
    ensures ResolveAssets(assets, listing).imports
            == ResolveAssets(assets[..i], listing).imports + ResolveAsset(assets[i], listing).imports
  {
    assert AssetOutcomes(assets, listing)[..i] == AssetOutcomes(assets[..i], listing);
    ChainStopsAtFirstThrow(AssetOutcomes(assets, listing), i);
  }

  /** A single descriptor resolves on its own. */
  lemma ResolveSingle(a: Asset, listing: map<string, seq<string>>)
    ensures ResolveAssets([a], listing) == ResolveAsset(a, listing)
  {
    var o := ResolveAsset(a, listing);
    var steps := AssetOutcomes([a], listing);
    assert steps == [o];
    assert steps[1..] == [];
    assert Chain(steps) == Then(o, Registered([]));
    match o
    case Thrown(_, _) =>
    case Registered(imports) => assert imports + [] == imports;
  }

  /** Combining `a + b` is combining `a`, then `b` unless `a` threw. */
  lemma {:induction false} ChainAppend(a: seq<Outcome>, b: seq<Outcome>)
    ensures Chain(a + b) == Then(Chain(a), Chain(b))
  {
    if |a| == 0 {
      assert a + b == b;
      match Chain(b)
      case Registered(more) => assert [] + more == more;
      case Thrown(more, e) => assert [] + more == more;
    } else {
      assert (a + b)[0] == a[0];
      assert (a + b)[1..] == a[1..] + b;
      ChainAppend(a[1..], b);
      ThenAssociative(a[0], Chain(a[1..]), Chain(b));
    }
  }

  /** Sequencing outcomes is associative. */
  lemma ThenAssociative(x: Outcome, y: Outcome, z: Outcome)
    ensures Then(x, Then(y, z)) == Then(Then(x, y), z)
  {
    match x
    case Thrown(_, _) =>
    case Registered(imports) =>
      match y
      case Thrown(_, _) =>
      case Registered(mid) =>
        match z
        case Registered(more) => assert imports + (mid + more) == (imports + mid) + more;
        case Thrown(more, e) => assert imports + (mid + more) == (imports + mid) + more;
  }

  /** Resolving `a + b` is resolving `a`, then `b` unless `a` threw. */
  lemma ResolveAssetsAppend(a: seq<Asset>, b: seq<Asset>, listing: map<string, seq<string>>)
    ensures ResolveAssets(a + b, listing) == Then(ResolveAssets(a, listing), ResolveAssets(b, listing))
  {
    assert AssetOutcomes(a + b, listing) == AssetOutcomes(a, listing) + AssetOutcomes(b, listing);
    ChainAppend(AssetOutcomes(a, listing), AssetOutcomes(b, listing));
  }

  /** Every directory a category's descriptors search. */
  function CategoryDirs(key: string): seq<string> {
    if key == "plugins" then [Join("js", "plugins"), Join("js", "third_party"), Join("css", "plugins"), Join("css", "third_party")]
    else if key == "languages" then [Join("js", "languages")]
    else [Join("css", "themes")]
  }

  /** Turning a category off is the same, for the build, as asking for `[]`
      in it, provided the category's directories can be listed. */
  lemma EmptyListBehavesLikeFalse(opts: map<string, JsVal>, key: string, listing: map<string, seq<string>>)
    requires key == "plugins" || key == "languages" || key == "themes"
    requires forall d :: d in CategoryDirs(key) ==> d in listing
    ensures ResolveAssets(Descriptors(opts[key := Arr([])]), listing)
            == ResolveAssets(Descriptors(opts[key := Bool(false)]), listing)
  {
    var on := opts[key := Arr([])];
    var off := opts[key := Bool(false)];
    var p, l, t := Get(opts, "plugins"), Get(opts, "languages"), Get(opts, "themes");
    if key == "plugins" {
      assert Descriptors(on) == Categories(Arr([]), l, t);
      assert Descriptors(off) == Categories(Bool(false), l, t);
      EmptyPluginsLikeFalse(l, t, listing);
    } else if key == "languages" {
      assert Descriptors(on) == Categories(p, Arr([]), t);
      assert Descriptors(off) == Categories(p, Bool(false), t);
      EmptyLanguagesLikeFalse(p, t, listing);
    } else {
      assert Descriptors(on) == Categories(p, l, Arr([]));
      assert Descriptors(off) == Categories(p, l, Bool(false));
      EmptyThemesLikeFalse(p, l, listing);
    }
  }

  /** `EmptyListBehavesLikeFalse` for the plugin value itself. */
  lemma EmptyPluginsLikeFalse(l: JsVal, t: JsVal, listing: map<string, seq<string>>)
    requires forall d :: d in CategoryDirs("plugins") ==> d in listing
    ensures ResolveAssets(Categories(Arr([]), l, t), listing) == ResolveAssets(Categories(Bool(false), l, t), listing)
  {
    var rest := LanguageAssets(l) + ThemeAssets(t);
    PluginsFirst(Arr([]), l, t);
    PluginsFirst(Bool(false), l, t);
    EmptyPluginsSilent(listing);
    SilentFront(PluginAssets(Arr([])), rest, listing);
  }

  /** The plugin descriptors come before the rest. */
  lemma PluginsFirst(p: JsVal, l: JsVal, t: JsVal)
    ensures Categories(p, l, t) == PluginAssets(p) + (LanguageAssets(l) + ThemeAssets(t))
    ensures !Truthy(p) ==> Categories(p, l, t) == LanguageAssets(l) + ThemeAssets(t)
  {
  }

  /** A prefix that imports nothing and throws nothing can be dropped. */
  lemma SilentFront(e: seq<Asset>, rest: seq<Asset>, listing: map<string, seq<string>>)
    requires ResolveAssets(e, listing) == Registered([])
    ensures ResolveAssets(e + rest, listing) == ResolveAssets(rest, listing)
  {
    ResolveAssetsAppend(e, rest, listing);
    match ResolveAssets(rest, listing)
    case Registered(more) => assert [] + more == more;
    case Thrown(more, _) => assert [] + more == more;
  }

  /** An empty plugin list adds nothing and throws nothing. */
  lemma EmptyPluginsSilent(listing: map<string, seq<string>>)
    requires forall d :: d in CategoryDirs("plugins") ==> d in listing
    ensures ResolveAssets(PluginAssets(Arr([])), listing) == Registered([])
  {
    var e := PluginAssets(Arr([]));
    var dirs := CategoryDirs("plugins");
    assert e == [ScriptAsset(Arr([])), StyleAsset(Arr([]))];
    assert e[0].dirs == dirs[..2] && e[1].dirs == dirs[2..];
    assert forall j :: 0 <= j < |e[0].dirs| ==> e[0].dirs[j] in listing;
    assert forall j :: 0 <= j < |e[1].dirs| ==> e[1].dirs[j] in listing;
    EmptyOnlyAssets(e, listing);
  }

  /** An empty language list adds nothing and throws nothing. */
  lemma EmptyLanguagesSilent(listing: map<string, seq<string>>)
    requires forall d :: d in CategoryDirs("languages") ==> d in listing
    ensures ResolveAssets(LanguageAssets(Arr([])), listing) == Registered([])
  {
    var e := LanguageAssets(Arr([]));
    assert e[0].dirs == CategoryDirs("languages");
    EmptyOnlyAssets(e, listing);
  }

  /** An empty theme list adds nothing and throws nothing. */
  lemma EmptyThemesSilent(listing: map<string, seq<string>>)
    requires forall d :: d in CategoryDirs("themes") ==> d in listing
    ensures ResolveAssets(ThemeAssets(Arr([])), listing) == Registered([])
  {
    var e := ThemeAssets(Arr([]));
    assert e[0].dirs == CategoryDirs("themes");
    EmptyOnlyAssets(e, listing);
  }

  /** `EmptyListBehavesLikeFalse` for the language value itself. */
  lemma EmptyLanguagesLikeFalse(p: JsVal, t: JsVal, listing: map<string, seq<string>>)
    requires forall d :: d in CategoryDirs("languages") ==> d in listing
    ensures ResolveAssets(Categories(p, Arr([]), t), listing) == ResolveAssets(Categories(p, Bool(false), t), listing)
  {
    LanguagesInMiddle(p, Arr([]), t);
    LanguagesInMiddle(p, Bool(false), t);
    EmptyLanguagesSilent(listing);
    SilentSegment(PluginAssets(p), LanguageAssets(Arr([])), ThemeAssets(t), listing);
  }

  /** The language descriptor sits between the plugin and theme ones. */
  lemma LanguagesInMiddle(p: JsVal, l: JsVal, t: JsVal)
    ensures Categories(p, l, t) == PluginAssets(p) + LanguageAssets(l) + ThemeAssets(t)
    ensures !Truthy(l) ==> Categories(p, l, t) == PluginAssets(p) + ThemeAssets(t)
  {
  }

  /** `EmptyListBehavesLikeFalse` for the theme value itself. */
  lemma EmptyThemesLikeFalse(p: JsVal, l: JsVal, listing: map<string, seq<string>>)
    requires forall d :: d in CategoryDirs("themes") ==> d in listing
    ensures ResolveAssets(Categories(p, l, Arr([])), listing) == ResolveAssets(Categories(p, l, Bool(false)), listing)
  {
    EmptyThemesSilent(listing);
    ThemesLast(p, l);
    SilentBack(PluginAssets(p) + LanguageAssets(l), ThemeAssets(Arr([])), listing);
  }

  /** The theme descriptor, when there is one, comes last. */
  lemma ThemesLast(p: JsVal, l: JsVal)
    ensures Categories(p, l, Arr([])) == PluginAssets(p) + LanguageAssets(l) + ThemeAssets(Arr([]))
    ensures Categories(p, l, Bool(false)) == PluginAssets(p) + LanguageAssets(l)
  {
    assert ThemeAssets(Bool(false)) == [];
    assert PluginAssets(p) + LanguageAssets(l) + [] == PluginAssets(p) + LanguageAssets(l);
  }

  /** Trailing descriptors that import nothing and raise nothing can be
      dropped. */
  lemma SilentBack(a: seq<Asset>, e: seq<Asset>, listing: map<string, seq<string>>)
    requires ResolveAssets(e, listing) == Registered([])
    ensures ResolveAssets(a + e, listing) == ResolveAssets(a, listing)
  {
    ResolveAssetsAppend(a, e, listing);
    match ResolveAssets(a, listing)
    case Registered(imports) => assert imports + [] == imports;
    case Thrown(_, _) =>
  }

  /** Descriptors that import nothing and raise nothing can be dropped. */
  lemma SilentSegment(a: seq<Asset>, e: seq<Asset>, b: seq<Asset>, listing: map<string, seq<string>>)
    requires ResolveAssets(e, listing) == Registered([])
    ensures ResolveAssets(a + e + b, listing) == ResolveAssets(a + b, listing)
  {
    ResolveAssetsAppend(a + e, b, listing);
    ResolveAssetsAppend(a, e, listing);
    ResolveAssetsAppend(a, b, listing);
    match ResolveAssets(a, listing)
    case Thrown(_, _) =>
    case Registered(imports) => assert imports + [] == imports;
  }

  /** A run of descriptors that each import nothing and raise nothing
      imports nothing and raises nothing. */
  lemma {:induction false} EmptyOnlyAssets(assets: seq<Asset>, listing: map<string, seq<string>>)
    requires forall i :: 0 <= i < |assets| ==> assets[i].files == Arr([])
    requires forall i, j :: 0 <= i < |assets| && 0 <= j < |assets[i].dirs| ==> assets[i].dirs[j] in listing
    ensures ResolveAssets(assets, listing) == Registered([])
  {
    if |assets| > 0 {
      EmptyOnlyAssets(assets[1..], listing);
      assert AssetOutcomes(assets, listing)[1..] == AssetOutcomes(assets[1..], listing);
      EmptyArrayImportsNothing(assets[0], listing);
      assert assets[0].(files := Arr([])) == assets[0];
    }
  }

  /** The plugin-script descriptor for a plugin value. */
  function ScriptAsset(v: JsVal): Asset {
    Asset(PluginScripts, [Join("js", "plugins"), Join("js", "third_party")], v, ".min.js", false)
  }

  /** The plugin-stylesheet descriptor for a plugin value. */
  function StyleAsset(v: JsVal): Asset {
    Asset(PluginStyles, [Join("css", "plugins"), Join("css", "third_party")], v, ".css", true)
  }

  /** A single requested value, in directories that can all be listed: it
      is imported when some directory lists `name + ext` and reported
      missing otherwise. */
  lemma SingleNameOutcome(a: Asset, name: string, listing: map<string, seq<string>>)
    requires a.files == Str(name)
    requires forall i :: 0 <= i < |a.dirs| ==> a.dirs[i] in listing
    ensures (exists i :: 0 <= i < |a.dirs| && name + a.ext in listing[a.dirs[i]])
            ==> ResolveAsset(a, listing).Registered? && |ResolveAsset(a, listing).imports| == 1
    ensures !(exists i :: 0 <= i < |a.dirs| && name + a.ext in listing[a.dirs[i]])
            ==> ResolveAsset(a, listing)
                == if a.optional then Registered([]) else Thrown([], MissingFiles(a.category, [Str(name)]))
  {
    var ix := BuildIndex(a.dirs, listing).index;
    IndexedIffListed(a.dirs, listing, name + a.ext);
    assert Requested(Classify(a.files), ix) == [Str(name)];
    assert Key(Str(name), a.ext) == name + a.ext;
    LookupOne(ix, a.ext, Str(name));
  }

  /** The plugin script for `name` is imported once when the first plugin
      directory lists it. */
  lemma ScriptFound(name: string, listing: map<string, seq<string>>)
    requires Join("js", "plugins") in listing && Join("js", "third_party") in listing
    requires name + ".min.js" in listing[Join("js", "plugins")]
    ensures ResolveAsset(ScriptAsset(Str(name)), listing).Registered?
    ensures |ResolveAsset(ScriptAsset(Str(name)), listing).imports| == 1
  {
    var js := ScriptAsset(Str(name));
    assert name + js.ext in listing[js.dirs[0]];
    SingleNameOutcome(js, name, listing);
  }

  /** The plugin script for `name` is reported missing when neither plugin
      directory lists it. */
  lemma ScriptMissing(name: string, listing: map<string, seq<string>>)
    requires Join("js", "plugins") in listing && Join("js", "third_party") in listing
    requires name + ".min.js" !in listing[Join("js", "plugins")]
    requires name + ".min.js" !in listing[Join("js", "third_party")]
    ensures ResolveAsset(ScriptAsset(Str(name)), listing) == Thrown([], MissingFiles(PluginScripts, [Str(name)]))
  {
    var js := ScriptAsset(Str(name));
    assert !(exists i :: 0 <= i < |js.dirs| && name + js.ext in listing[js.dirs[i]]);
    SingleNameOutcome(js, name, listing);
  }

  /** A plugin stylesheet that neither stylesheet directory lists is
      skipped without an error. */
  lemma StyleSkipped(name: string, listing: map<string, seq<string>>)
    requires Join("css", "plugins") in listing && Join("css", "third_party") in listing
    requires name + ".css" !in listing[Join("css", "plugins")]
    requires name + ".css" !in listing[Join("css", "third_party")]
    ensures ResolveAsset(StyleAsset(Str(name)), listing) == Registered([])
  {
    var css := StyleAsset(Str(name));
    assert !(exists i :: 0 <= i < |css.dirs| && name + css.ext in listing[css.dirs[i]]);
    SingleNameOutcome(css, name, listing);
  }

  /** `plugins: "name"` aborts the build when no plugin directory holds
      `name.min.js`, before any plugin stylesheet is looked at. */
  lemma UnknownPluginAborts(opts: map<string, JsVal>, name: string, listing: map<string, seq<string>>)
    requires Get(opts, "plugins") == Str(name) && name != ""
    requires Join("js", "plugins") in listing && Join("js", "third_party") in listing
    requires name + ".min.js" !in listing[Join("js", "plugins")]
    requires name + ".min.js" !in listing[Join("js", "third_party")]
    ensures ResolveAssets(Descriptors(opts), listing) == Thrown([], MissingFiles(PluginScripts, [Str(name)]))
  {
    var v := Str(name);
    var js := ScriptAsset(v);
    var rest := [StyleAsset(v)] + (LanguageAssets(Get(opts, "languages")) + ThemeAssets(Get(opts, "themes")));
    PluginsFirst(v, Get(opts, "languages"), Get(opts, "themes"));
    assert PluginAssets(v) + (LanguageAssets(Get(opts, "languages")) + ThemeAssets(Get(opts, "themes"))) == [js] + rest;
    ScriptMissing(name, listing);
    ResolveSingle(js, listing);
    ResolveAssetsAppend([js], rest, listing);
  }

  /** A plugin whose script exists but whose stylesheet does not still
      builds: the script is imported and the stylesheet is skipped. */
  lemma PluginWithoutStylesheetBuilds(opts: map<string, JsVal>, name: string, listing: map<string, seq<string>>)
    requires Get(opts, "plugins") == Str(name) && name != ""
    requires !Truthy(Get(opts, "languages")) && !Truthy(Get(opts, "themes"))
    requires forall d :: d in CategoryDirs("plugins") ==> d in listing
    requires name + ".min.js" in listing[Join("js", "plugins")]
    requires name + ".css" !in listing[Join("css", "plugins")]
    requires name + ".css" !in listing[Join("css", "third_party")]
    ensures ResolveAssets(Descriptors(opts), listing).Registered?
    ensures |ResolveAssets(Descriptors(opts), listing).imports| == 1
  {
    var v := Str(name);
    var js, css := ScriptAsset(v), StyleAsset(v);
    PluginsFirst(v, Get(opts, "languages"), Get(opts, "themes"));
    assert Descriptors(opts) == [js] + [css];
    var dirs := CategoryDirs("plugins");
    assert dirs[0] in listing && dirs[1] in listing && dirs[2] in listing && dirs[3] in listing;
    ScriptFound(name, listing);
    StyleSkipped(name, listing);
    ResolveAssetsAppend([js], [css], listing);
    ResolveSingle(js, listing);
    ResolveSingle(css, listing);
  }

  /** The fixed text after the label in the type error. */
  const InvalidTypeText: string :=
    " option in ember-cli-build.js is an invalid type, "
    + "ensure it is either a boolean (all or none), string (just one), or array (specific list)"

  /** The fixed text between the label and the file list in the
      missing-file error. */
  const MissingFilesText: string :=
    " specified in ember-cli-build.js are missing, make sure they are spelled correctly ("

  /** The text of the error thrown for a build error; `addonName` is the
      addon's package name. */
  function Message(addonName: string, e: BuildError): (r: string)
    ensures !e.UnreadableDir? ==> |r| > |addonName| + 2 && r[..|addonName| + 2] == addonName + ": "
    ensures e.UnreadableDir? ==> Contains(r, e.dir)
  {
    match e
    case InvalidType(c) => addonName + ": " + Label(c) + InvalidTypeText
    case MissingFiles(c, names) =>
      addonName + ": " + Label(c) + MissingFilesText + JoinValues(names, ", ") + ")"
    case UnreadableDir(dir) =>
      var text := "ENOENT: no such file or directory, scandir '" + dir + "'";
      assert OccursAt(text, dir, |text| - |dir| - 1);
      text
  }

  /** The missing-file message names the descriptor and every missing
      value, as `join` writes it. */
  lemma MissingMessageNamesEveryFile(addonName: string, c: Category, names: seq<JsVal>, k: nat)
    requires k < |names|
    ensures Contains(Message(addonName, MissingFiles(c, names)), JoinElement(names[k]))
    ensures Contains(Message(addonName, MissingFiles(c, names)), Label(c))
  {
    var title := Label(c);
    var joined := JoinValues(names, ", ");
    var head := addonName + ": " + title + MissingFilesText;
    var rest := MissingFilesText + joined + ")";
    var m := Message(addonName, MissingFiles(c, names));
    assert m == head + joined + ")";
    assert m == addonName + ": " + title + rest;
    JoinValuesContainsElements(names, ", ", k);
    ContainsInContext(head, joined, ")", JoinElement(names[k]));
    LabelAfterName(addonName, title, rest);
  }

  /** The invalid-type message names the descriptor. */
  lemma InvalidTypeMessageNamesLabel(addonName: string, c: Category)
    ensures Contains(Message(addonName, InvalidType(c)), Label(c))
  {
    LabelAfterName(addonName, Label(c), InvalidTypeText);
  }

  lemma LabelAfterName(addonName: string, title: string, rest: string)
    ensures Contains(addonName + ": " + title + rest, title)
  {
    var s := addonName + ": " + title + rest;
    assert s[|addonName| + 2..|addonName| + 2 + |title|] == title;
    assert OccursAt(s, title, |addonName| + 2);
  }
}

=== FILE: selection.dfy ===
/** The part of `included(app)` that turns one descriptor's option value
    into requested names and looks each of them up in the discovery index. */
module Selection {
  import opened Sequences
  import opened JsValue
  import opened Paths
  import opened Discovery

  /** The option value after the `typeof` tests: `true` asks for every
      discovered file, a string or an array for the names it holds, and any
      other value is rejected. */
  datatype Selector = All | Named(names: seq<JsVal>) | Invalid

  /** `typeof files === 'boolean'`, `typeof files === 'string'`,
      `Array.isArray(files)`, and the error branch. */
  function Classify(files: JsVal): (r: Selector)
    ensures r.Invalid? <==> !(files.Bool? || files.Str? || files.Arr?)
    ensures r.All? <==> files.Bool?
    ensures files.Str? ==> r == Named([files])
    ensures files.Arr? ==> r == Named(files.items)
  {
    match files
    case Bool(_) => All
    case Str(_) => Named([files])
    case Arr(items) => Named(items)
    case _ => Invalid
  }

  /** `fileName.split('.')[0]`: the text before the first dot, or the whole
      name when it has none. */
  function FirstDotPrefix(f: string): (r: string)
    ensures r <= f
    ensures '.' !in r
    ensures |r| < |f| ==> f[|r|] == '.'
  {
    if |f| == 0 || f[0] == '.' then ""
    else [f[0]] + FirstDotPrefix(f[1..])
  }

  /** The first-dot prefix of every key, in key order. */
  function Prefixes(keys: seq<string>): (r: seq<string>)
    ensures |r| == |keys|
    ensures forall i :: 0 <= i < |keys| ==> r[i] == FirstDotPrefix(keys[i])
  {
    seq(|keys|, i requires 0 <= i < |keys| => FirstDotPrefix(keys[i]))
  }

  /** What `true` expands to: the distinct first-dot prefixes of the
      index's keys, in first-seen key order. */
  function AllNames(ix: Index): (r: seq<string>)
    ensures Distinct(r)
    ensures forall i :: 0 <= i < |ix.keys| ==> FirstDotPrefix(ix.keys[i]) in r
    ensures forall n :: n in r ==> exists i :: 0 <= i < |ix.keys| && FirstDotPrefix(ix.keys[i]) == n
  {
    var ps := Prefixes(ix.keys);
    assert forall i :: 0 <= i < |ix.keys| ==> ps[i] == FirstDotPrefix(ix.keys[i]);
    Dedup(ps)
  }

  /** `true` lists its names in the order their first key appears. */
  lemma AllNamesInFirstSeenOrder(ix: Index)
    ensures forall i, j :: 0 <= i < j < |AllNames(ix)|
                           ==> FirstIndex(Prefixes(ix.keys), AllNames(ix)[i]) < FirstIndex(Prefixes(ix.keys), AllNames(ix)[j])
  {
    DedupKeepsFirstOccurrenceOrder(Prefixes(ix.keys));
  }

  /** The list `asset.files` holds after classification. */
  function Requested(sel: Selector, ix: Index): seq<JsVal> {
    match sel
    case All =>
      var names := AllNames(ix);
      seq(|names|, i requires 0 <= i < |names| => Str(names[i]))
    case Named(names) => names
    case Invalid => []
  }

  /** The property looked up for a requested value: `file + asset.extension`. */
  function Key(v: JsVal, ext: string): (r: string)
    ensures |r| == |ToStr(v)| + |ext|
    ensures r[..|ToStr(v)|] == ToStr(v) && r[|ToStr(v)|..] == ext
    ensures v.Str? ==> r == v.s + ext
    ensures v.Arr? && |v.items| == 1 && v.items[0].Str? ==> r == v.items[0].s + ext
  {
    ToStr(v) + ext
  }

  /** `pathFiles` has an own property for the requested value. */
  predicate Found(ix: Index, v: JsVal, ext: string) {
    Key(v, ext) in ix.paths
  }

  /** The path handed to `this.import` for a found value. */
  function ImportPath(ix: Index, v: JsVal, ext: string): string
    requires Found(ix, v, ext)
  {
    Join(NodePath, ix.paths[Key(v, ext)])
  }

  /** A found value is imported from the last searched directory that
      lists its key, below the library's node path. */
  lemma ImportPathFromLastDirectory(dirs: seq<string>, listing: map<string, seq<string>>, v: JsVal, ext: string, i: nat)
    requires BuildIndex(dirs, listing).Listed?
    requires i < |dirs| && Key(v, ext) in listing[dirs[i]]
    requires forall j :: i < j < |dirs| ==> Key(v, ext) !in listing[dirs[j]]
    ensures Found(BuildIndex(dirs, listing).index, v, ext)
    ensures ImportPath(BuildIndex(dirs, listing).index, v, ext) == Join(NodePath, Join(dirs[i], Key(v, ext)))
  {
    LastDirectoryWins(dirs, listing, i, Key(v, ext));
  }

  /** Imports made and values missed by the loop over the requested list. */
  datatype Lookup = Lookup(registered: seq<string>, missing: seq<JsVal>)

  /** The `asset.files.forEach` loop: a found value appends its import
      path, any other value is appended to the missing list. */
  function LookupAll(ix: Index, ext: string, names: seq<JsVal>): (r: Lookup)
    ensures |r.registered| + |r.missing| == |names|
  {
    if |names| == 0 then Lookup([], [])
    else
      var prior := LookupAll(ix, ext, names[..|names| - 1]);
      var v := names[|names| - 1];
      if Found(ix, v, ext) then Lookup(prior.registered + [ImportPath(ix, v, ext)], prior.missing)
      else Lookup(prior.registered, prior.missing + [v])
  }

  /** What the loop promises: every requested value either is imported or
      is recorded as missing, never both; a value is missing exactly when
      its key is not in the index; every found value is imported. */
  lemma {:induction false} LookupAllSpec(ix: Index, ext: string, names: seq<JsVal>)
    ensures |LookupAll(ix, ext, names).registered| + |LookupAll(ix, ext, names).missing| == |names|
    ensures forall v :: v in LookupAll(ix, ext, names).missing <==> v in names && !Found(ix, v, ext)
    ensures forall i :: 0 <= i < |names| && Found(ix, names[i], ext)
                        ==> ImportPath(ix, names[i], ext) in LookupAll(ix, ext, names).registered
  {
    if |names| > 0 {
      var front := names[..|names| - 1];
      var v := names[|names| - 1];
      assert names == front + [v];
      LookupAllSpec(ix, ext, front);
      LookupSnoc(ix, ext, front, v);
    }
  }

  /** One more requested value extends the imports or the missing list. */
  lemma LookupSnoc(ix: Index, ext: string, s: seq<JsVal>, v: JsVal)
    ensures Found(ix, v, ext)
            ==> LookupAll(ix, ext, s + [v])
                == Lookup(LookupAll(ix, ext, s).registered + [ImportPath(ix, v, ext)], LookupAll(ix, ext, s).missing)
    ensures !Found(ix, v, ext)
            ==> LookupAll(ix, ext, s + [v]) == Lookup(LookupAll(ix, ext, s).registered, LookupAll(ix, ext, s).missing + [v])
  {
    var sv := s + [v];
    assert sv[..|sv| - 1] == s;
    assert sv[|sv| - 1] == v;
  }

  /** The loop is a concatenation homomorphism: requesting `a` then `b`
      imports what `a` imports followed by what `b` imports, and misses the
      same way. With `LookupOne` this fixes the order of both lists: request
      order. */
  lemma {:induction false} LookupAppend(ix: Index, ext: string, a: seq<JsVal>, b: seq<JsVal>)
    ensures LookupAll(ix, ext, a + b)
            == Lookup(LookupAll(ix, ext, a).registered + LookupAll(ix, ext, b).registered,
                      LookupAll(ix, ext, a).missing + LookupAll(ix, ext, b).missing)
  {
    if |b| == 0 {
      assert a + b == a;
    } else {
      var front := b[..|b| - 1];
      var v := b[|b| - 1];
      assert a + b == (a + front) + [v];
      assert b == front + [v];
      LookupAppend(ix, ext, a, front);
      LookupSnoc(ix, ext, a + front, v);
      LookupSnoc(ix, ext, front, v);
      var ra := LookupAll(ix, ext, a);
      var rf := LookupAll(ix, ext, front);
      if Found(ix, v, ext) {
        var p := ImportPath(ix, v, ext);
        assert (ra.registered + rf.registered) + [p] == ra.registered + (rf.registered + [p]);
      } else {
        assert (ra.missing + rf.missing) + [v] == ra.missing + (rf.missing + [v]);
      }
    }
  }

  /** One requested value: imported once when found, recorded as missing
      otherwise. */
  lemma LookupOne(ix: Index, ext: string, v: JsVal)
    ensures Found(ix, v, ext) ==> LookupAll(ix, ext, [v]) == Lookup([ImportPath(ix, v, ext)], [])
    ensures !Found(ix, v, ext) ==> LookupAll(ix, ext, [v]) == Lookup([], [v])
  {
    LookupSnoc(ix, ext, [], v);
    assert [] + [v] == [v];
  }

  /** `name` followed by `ext`, with no dot in `name`: the shape of every
      file the library ships in a category directory. */
  predicate PlainName(k: string, ext: string) {
    |k| >= |ext| && k[|k| - |ext|..] == ext && '.' !in k[..|k| - |ext|]
  }

  /** When every discovered file is `name + ext` with a dot-free name and
      an extension that starts with a dot, `true` imports every discovered
      file exactly once and misses nothing. */
  lemma AllImportsEveryPlainFile(ix: Index, ext: string)
    requires Valid(ix)
    requires |ext| > 0 && ext[0] == '.'
    requires forall i :: 0 <= i < |ix.keys| ==> PlainName(ix.keys[i], ext)
    ensures LookupAll(ix, ext, Requested(All, ix)).missing == []
    ensures |LookupAll(ix, ext, Requested(All, ix)).registered| == |ix.keys|
  {
    var req := Requested(All, ix);
    AllRequestsFound(ix, ext);
    NothingMissingWhenAllFound(ix, ext, req);
  }

  /** Under the same conditions, every value `true` requests is a key. */
  lemma AllRequestsFound(ix: Index, ext: string)
    requires Valid(ix)
    requires |ext| > 0 && ext[0] == '.'
    requires forall i :: 0 <= i < |ix.keys| ==> PlainName(ix.keys[i], ext)
    ensures |Requested(All, ix)| == |ix.keys|
    ensures forall i :: 0 <= i < |Requested(All, ix)| ==> Found(ix, Requested(All, ix)[i], ext)
  {
    PlainPrefixes(ix, ext);
    forall i | 0 <= i < |ix.keys|
      ensures Found(ix, Requested(All, ix)[i], ext)
    {
      RequestFound(ix, ext, i);
    }
  }

  /** The `i`-th value `true` requests names the `i`-th key, when that key
      is its own stem plus `ext`. */
  lemma RequestFound(ix: Index, ext: string, i: nat)
    requires Valid(ix)
    requires AllNames(ix) == Prefixes(ix.keys)
    requires i < |ix.keys| && Prefixes(ix.keys)[i] + ext == ix.keys[i]
    ensures i < |Requested(All, ix)| && Found(ix, Requested(All, ix)[i], ext)
  {
    var ps := Prefixes(ix.keys);
    var req := Requested(All, ix);
    assert req[i] == Str(ps[i]);
    assert Key(req[i], ext) == ix.keys[i];
    assert ix.keys[i] in ix.keys;
  }

  /** A request list whose every value is found imports each of them and
      misses nothing. */
  lemma {:induction false} NothingMissingWhenAllFound(ix: Index, ext: string, names: seq<JsVal>)
    requires forall i :: 0 <= i < |names| ==> Found(ix, names[i], ext)
    ensures LookupAll(ix, ext, names).missing == []
    ensures |LookupAll(ix, ext, names).registered| == |names|
  {
    if |names| > 0 {
      var front := names[..|names| - 1];
      var v := names[|names| - 1];
      assert names == front + [v];
      NothingMissingWhenAllFound(ix, ext, front);
      LookupSnoc(ix, ext, front, v);
    }
  }

  /** For plain names the first-dot prefixes are the distinct stems of the
      keys, so `true` requests them all, in key order. */
  lemma PlainPrefixes(ix: Index, ext: string)
    requires Valid(ix)
    requires |ext| > 0 && ext[0] == '.'
    requires forall i :: 0 <= i < |ix.keys| ==> PlainName(ix.keys[i], ext)
    ensures forall i :: 0 <= i < |ix.keys| ==> Prefixes(ix.keys)[i] + ext == ix.keys[i]
    ensures AllNames(ix) == Prefixes(ix.keys)
  {
    var ps := Prefixes(ix.keys);
    forall i | 0 <= i < |ix.keys|
      ensures ps[i] + ext == ix.keys[i]
    {
      StemIsFirstDotPrefix(ix.keys[i], ext);
    }
    assert Distinct(ps) by {
      forall i, j | 0 <= i < j < |ps|
        ensures ps[i] != ps[j]
      {
        assert ix.keys[i] != ix.keys[j];
      }
    }
    DedupOfDistinct(ps);
  }

  /** For a plain name the text before the extension is the first-dot prefix. */
  lemma StemIsFirstDotPrefix(k: string, ext: string)
    requires PlainName(k, ext) && |ext| > 0 && ext[0] == '.'
    ensures FirstDotPrefix(k) + ext == k
  {
    var stem := k[..|k| - |ext|];
    var r := FirstDotPrefix(k);
    assert k == stem + ext;
    assert r <= k;
    assert r == stem;
  }

  /** The first-dot rule cuts a name that itself holds a dot: a plugin file
      `a.b.min.js` is requested as `a`, looked up as `a.min.js`, and so
      reported missing when `true` selects it. */
  lemma AllTruncatesDottedNames()
    ensures LookupAll(Index(["a.b.min.js"], map["a.b.min.js" := "js/plugins/a.b.min.js"]), ".min.js",
                      Requested(All, Index(["a.b.min.js"], map["a.b.min.js" := "js/plugins/a.b.min.js"])))
            == Lookup([], [Str("a")])
  {
    var ix := Index(["a.b.min.js"], map["a.b.min.js" := "js/plugins/a.b.min.js"]);
    assert FirstDotPrefix("a.b.min.js") == "a";
    assert Prefixes(ix.keys) == ["a"];
    assert Dedup(["a"]) == ["a"];
    assert Requested(All, ix) == [Str("a")];
    assert !Found(ix, Str("a"), ".min.js");
    LookupOne(ix, ".min.js", Str("a"));
  }
}

=== FILE: sequences.dfy ===
/** Sequence helpers shared by the discovery index and by the `true`
    selector: duplicate removal that keeps the first occurrence of every
    element, which is what both an insertion-ordered object's key list and an
    `includes`-guarded `reduce` compute. */
module Sequences {

  /** No element occurs twice. */
  predicate Distinct<T(==)>(s: seq<T>) {
    forall i, j :: 0 <= i < j < |s| ==> s[i] != s[j]
  }

  /** Position of the first occurrence of `x` in `s`. */
  function FirstIndex<T(==)>(s: seq<T>, x: T): (i: nat)
    requires x in s
    ensures i < |s| && s[i] == x
    ensures x !in s[..i]
  {
    if s[0] == x then 0
    else
      var i' := FirstIndex(s[1..], x);
      assert s[..i' + 1] == [s[0]] + s[1..][..i'];
      i' + 1
  }

  /** Extending a sequence does not move the first occurrence of an element
      it already holds. */
  lemma {:induction false} FirstIndexOfPrefix<T>(p: seq<T>, q: seq<T>, x: T)
    requires x in p
    ensures FirstIndex(p + q, x) == FirstIndex(p, x)
  {
    if p[0] != x {
      assert (p + q)[1..] == p[1..] + q;
      FirstIndexOfPrefix(p[1..], q, x);
    }
  }

  /** `FirstIndexOfPrefix` for every element of the prefix at once. */
  lemma FirstIndicesOfPrefix<T>(p: seq<T>, q: seq<T>)
    ensures forall x :: x in p ==> FirstIndex(p + q, x) == FirstIndex(p, x)
  {
    forall x | x in p
      ensures FirstIndex(p + q, x) == FirstIndex(p, x)
    {
      FirstIndexOfPrefix(p, q, x);
    }
  }

  /** `s` without repetitions, every element kept at its first occurrence:
      the left fold `if (!acc.includes(x)) acc.push(x)`. */
  function Dedup<T(==,!new)>(s: seq<T>): (r: seq<T>)
    ensures Distinct(r)
    ensures forall x :: x in r <==> x in s
  {
    if |s| == 0 then []
    else
      var d := Dedup(s[..|s| - 1]);
      if s[|s| - 1] in d then d else d + [s[|s| - 1]]
  }

  /** One more element either is already present, and changes nothing, or
      goes last. */
  lemma DedupSnoc<T(!new)>(s: seq<T>, x: T)
    ensures Dedup(s + [x]) == if x in Dedup(s) then Dedup(s) else Dedup(s) + [x]
  {
    assert (s + [x])[..|s|] == s;
  }

  /** `Dedup` lists the elements in the order of their first occurrence in
      `s`; with `Distinct` and the membership clause this pins its result
      down completely. */
  lemma {:induction false} DedupKeepsFirstOccurrenceOrder<T(!new)>(s: seq<T>)
    ensures forall i, j :: 0 <= i < j < |Dedup(s)| ==> FirstIndex(s, Dedup(s)[i]) < FirstIndex(s, Dedup(s)[j])
  {
    if |s| > 0 {
      var p := s[..|s| - 1];
      var x := s[|s| - 1];
      assert s == p + [x];
      DedupKeepsFirstOccurrenceOrder(p);
      FirstIndicesOfPrefix(p, [x]);
      if x !in Dedup(p) {
        assert FirstIndex(s, x) == |p|;
      }
    }
  }

  /** On a sequence that has no repetitions, `Dedup` changes nothing. */
  lemma {:induction false} DedupOfDistinct<T(!new)>(s: seq<T>)
    requires Distinct(s)
    ensures Dedup(s) == s
  {
    if |s| > 0 {
      var p := s[..|s| - 1];
      assert Distinct(p);
      DedupOfDistinct(p);
      assert s[|s| - 1] !in p;
      assert p + [s[|s| - 1]] == s;
    }
  }
}
